=== FILE: README.md ===
# PDF RAG server: a verified model of its decision logic

The server lets a signed-in user upload a PDF. It stores the file, records
it in a `Pdf` collection and queues an ingestion job. A worker downloads,
parses, splits and indexes the text. The user then asks questions: the chat
route retrieves the PDF's chunks, builds a prompt context, asks a language
model, and appends the question and answer to a per-PDF conversation in a
`Chat` collection.

This project models the server's own logic as pure Dafny functions. Every
hosted service (object storage, the job queue, the PDF parser, the text
splitter, embeddings and vector search, the chat completion) is a
function-valued parameter that succeeds or fails. The model covers:

- `JsText`: JavaScript strings as sequences of UTF-16 code units. It includes
  decimal rendering of `Date.now()` and `String.prototype.trim` with the
  ECMAScript white-space set.
- `UploadPath`: the file-name sanitiser and the storage key
  `<userId>/<timestamp>-<safeName>`. It also has an inverse that reads a key
  back, used to prove which uploads can collide.
- `Context`: the retrieved chunk texts joined by `"\n\n"` and cut to 2000
  code units.
- `PdfStore`: the `Pdf` collection with its required fields, unique `_id` and
  `filePath`, timestamps, and owner-scoped lookup and newest-first listing.
- `ChatStore`: the `Chat` collection with its role enum, one conversation
  per `pdfId`, and the two-key upsert that appends a question/answer pair.
- `Server`: the upload, chat, history and pdf routes. Each returns its
  response, the collections afterwards and, where order matters, the calls
  it made to external services.
- `Worker`: the ingestion job as a linear pipeline. A run is the calls made,
  in order, plus the result. The first failure ends the run.

Two behaviours follow from the code and are proved as lemmas:

- The chat route does not check who owns the PDF. The `Chat.pdfId` index is
  unique, but the upsert filters on `(pdfId, userId)`. So whoever chats about
  a PDF first holds its only conversation. Later questions from anyone else,
  including the owner, fail with a duplicate key (HTTP 500). See
  `Server.FirstAskerHoldsConversation`.
- If the queue refuses the job, the `Pdf` record already exists. The route
  answers 500, but the PDF is still listed and never gets indexed. See
  `Server.QueueFailureLeavesRecord`.

## Model

| member | source | states |
|---|---|---|
| `JsText.Decimal` | server/index.js:65 | the decimal text of a timestamp is non-empty, all ASCII digits, and has no leading zero; 0 renders as exactly "0" |
| `JsText.DecimalRoundTrip` | server/index.js:65 | the decimal text of the upload timestamp reads back as the same number, so the key's timestamp part is unambiguous |
| `JsText.DecimalInjective` | server/index.js:65 | two timestamps render to the same decimal text only if they are equal, so the key's timestamp part is unambiguous |
| `JsText.Take` | server/index.js:156 | `slice(0, n)` is a prefix of the string, of length n or the whole string when it is shorter |
| `JsText.Trim` | server/worker.js:58 | `trim()` gives a run of the text that neither starts nor ends with white space, and only white space is cut away before and after it |
| `JsText.TrimEmptyIffBlank` | server/worker.js:58 | `trim()` gives the empty string exactly when every code unit is ECMAScript white space |
| `UploadPath.Sanitise` | server/index.js:64 | the safe name is as long as the original, and each code unit is kept if it is in `[a-zA-Z0-9.-]` and replaced by `_` otherwise |
| `UploadPath.SanitisedIsSafe` | server/index.js:64 | a safe name contains only `[a-zA-Z0-9.-]` and `_` |
| `UploadPath.SanitiseFixesExactlySafeNames` | server/index.js:64 | the sanitiser leaves a name unchanged if and only if the name is already safe |
| `UploadPath.SanitiseIdempotent` | server/index.js:64 | sanitising a safe name again changes nothing |
| `UploadPath.SanitiseMergesUnsafeWithUnderscore` | server/index.js:64 | names that differ only by an unsafe code unit versus `_` at one position get the same safe name |
| `UploadPath.SanitiseNotInjective` | server/index.js:64 | "a b.pdf" and "a_b.pdf" are different names with the same safe name |
| `UploadPath.StoragePath` | server/index.js:65 | the storage key starts with the uploader's id followed by `/`, and its length is id + timestamp digits + name + 2 |
| `UploadPath.StoragePathRoundTrip` | server/index.js:64-65 | for a user id without `/`, the key splits back into that user id, that timestamp and the sanitised name |
| `UploadPath.StampedHasNoSlash` | server/index.js:64-65 | the part of a key after the user id (timestamp digits, `-`, safe name) never contains `/` |
| `UploadPath.StoragePathInjective` | server/index.js:64-65 | for any user ids, including ids that contain `/`, two uploads get the same key if and only if they have the same user, the same millisecond and names that sanitise alike |
| `Documents.Texts` | server/index.js:154 | the texts are the documents' `pageContent`, one for each document, in retrieval order |
| `Context.Join` | server/index.js:155 | `join` of no parts is empty and of one part is that part; otherwise it starts with the first part and a separator; it is as long as its parts plus one separator between each pair of neighbours |
| `Context.JoinSplit` | server/index.js:155 | joining the whole list gives the join of the first k parts, then a separator, then the join of the rest |
| `Context.AssembleContext` | server/index.js:153-156 | the context has at most 2000 code units and is a prefix of the chunk texts joined by "\n\n"; it is the whole join when that fits and exactly 2000 code units when it does not |
| `Context.ContextKeepsLeadingChunks` | server/index.js:153-156 | when the first k chunks joined fit in 2000 code units, the context starts with exactly those chunks, in retrieval order |
| `Context.ContextOfLongFirstChunk` | server/index.js:153-156 | a first chunk of 2000 code units or more fills the whole context, so no other chunk reaches the model |
| `PdfStore.Create` | server/models/pdf.js:3-30 | an insert succeeds if and only if all four required strings are non-empty and neither the `_id` nor the `filePath` is taken; the new record is appended with `createdAt` = `updatedAt` = insertion time; validity (required fields, unique ids and paths) is preserved |
| `PdfStore.DuplicatePathRejected` | server/models/pdf.js:16-20 | an insert whose `filePath` is already stored is refused |
| `PdfStore.FindOwned` | server/index.js:252 | `findOne({_id, userId})` returns a stored record with both keys, and returns nothing if and only if no record has both |
| `PdfStore.FindOwnedIgnoresOtherUsers` | server/index.js:252-255 | in a valid collection, a record owned by another user is never returned to the requester |
| `PdfStore.OwnedBy` | server/index.js:236 | the user's records and no others, each as many times as it is stored |
| `PdfStore.SortNewestFirst` | server/index.js:236 | the sort is a permutation of its input, ordered by `createdAt` from newest to oldest |
| `PdfStore.ListOwned` | server/index.js:236 | the listing holds exactly the requester's records, as a multiset, with the newest `createdAt` first |
| `ChatStore.ParseRole` | server/models/chat.js:5-9 | a role is accepted if and only if it is "user" or "assistant", and it reads back as the same text |
| `ChatStore.RoleNameRoundTrip` | server/models/chat.js:5-9 | each role survives the trip to its stored name and back |
| `ChatStore.FindConversation` | server/index.js:178-179 | the first conversation that matches both `pdfId` and `userId`, or none if and only if no conversation matches both |
| `ChatStore.AppendTurn` | server/index.js:178-189 | a matching conversation gets exactly `[user: question, assistant: answer]` appended and every other conversation is unchanged; without a match a new conversation is added; the upsert fails if and only if another user's conversation already holds the pdfId |
| `ChatStore.AppendTurnKeepsValid` | server/models/chat.js:18-36 | appending keeps one conversation per pdfId, non-empty ids, and user/assistant pairs with non-empty questions |
| `ChatStore.History` | server/index.js:217-221 | with no matching conversation the history is the empty list; otherwise it is that conversation's messages |
| `ChatStore.HistoryAfterAppend` | server/index.js:178-189 | after a successful append, the asker's history is the old one plus the new pair, and every other history is unchanged |
| `ChatStore.ForeignConversationBlocksUpsert` | server/models/chat.js:20-25 | an upsert for a pdfId whose conversation belongs to another user fails with a duplicate key |
| `Server.JobFor` | server/index.js:93-96 | the job is named "file-ready" and carries the record's id, which is never empty, and its storage key |
| `Server.Upload` | server/index.js:54-108 | the route answers 400 if and only if no file was sent, and then changes nothing; with a file it answers 200 if and only if the storage write of the key, the insert of the record with the key's public URL and the enqueue of that record's job all succeed; the key is reported written exactly when the storage write succeeded; the returned `pdfUrl` is the key's public URL; the collection afterwards is the one the insert produced when the storage write and the insert succeeded (even if the queue then refuses the job) and is unchanged otherwise; a success appends exactly one record (sanitised `filePath`, unsanitised `originalName`, the uploader's id) and enqueues exactly one job with that record's id and path; a failure enqueues nothing; at most one record is added, and only after the storage write |
| `Server.UploadToTakenPathFails` | server/index.js:64-90 | an upload whose key is already recorded fails and adds no record and no job |
| `Server.QueueFailureLeavesRecord` | server/index.js:85-107 | when the queue refuses the job the route fails, yet the new record remains and appears in the uploader's listing |
| `Server.UploadedJobNamesRecord` | server/index.js:93-96 | the queued job is "file-ready", carries the record's id and storage key, and both fields pass the worker's check |
| `Server.HandleChat` | server/index.js:110-203 | the route answers 400 if and only if the message or the pdfId is missing or empty, and then makes no service call and no change; otherwise it answers 200 if and only if retrieval, the completion and the upsert all succeed; the calls it makes are exactly the retrieval and, when retrieval returned chunks, one completion, whatever happens afterwards; retrieval asks for 3 chunks of that pdfId; every completion call gets the question and the context assembled from exactly the retrieved chunks (at most 2000 code units); the answer returned is the completion's; any failure leaves the history unchanged; an answer means the upsert succeeded |
| `Server.ChatExtendsHistory` | server/index.js:178-189 | an answered question appends the pair to the asker's history only, and the collection stays valid |
| `Server.ChatsKeepOneConversationPerPdf` | server/models/chat.js:20-25 | after the chat route has served any sequence of requests, from any users, starting from a valid collection, the collection is valid and no two conversations share a pdfId |
| `Server.FirstAskerHoldsConversation` | server/index.js:115-189 | when another user asks first about a PDF, that user's question is answered and the owner's later question fails |
| `Server.HandleHistory` | server/index.js:205-230 | a missing or empty pdfId gives 400 and nothing else does; with no conversation the messages are the empty list; otherwise they are that conversation's messages |
| `Server.AnsweredChatAppearsInHistory` | server/index.js:205-222 | after an answered chat, the history route returns the earlier messages followed by the user question and the assistant answer |
| `Server.HandleListPdfs` | server/index.js:232-246 | `/pdfs` lists exactly the requester's records, each as many times as it is stored, newest first |
| `Server.HandleGetPdf` | server/index.js:248-261 | `/pdfs/:pdfId` answers 404 if and only if no record has that id and belongs to the requester; otherwise it answers 200 with such a record |
| `Server.UploadedPdfIsScopedToUploader` | server/index.js:232-261 | after an upload the uploader finds the record by id and in their listing; any other user finds it in neither |
| `Worker.HasText` | server/worker.js:58-60 | the text passes the check if and only if it has a code unit that is not white space |
| `Worker.HasTextIffTrimmedNonEmpty` | server/worker.js:58 | that check agrees with `!text \|\| !text.trim()` |
| `Worker.IndexStep` | server/worker.js:95-99 | indexing is the last call; it succeeds with the chunks if and only if the vector store accepts them |
| `Worker.SplitStep` | server/worker.js:67-80 | splitting is one call with the tagged document; a success hands exactly the splitter's chunks to the indexer |
| `Worker.ParseStep` | server/worker.js:56-60 | the job fails for lack of text if and only if the parsed text is blank; every document handed to the splitter carries the job's pdfId and non-blank text |
| `Worker.DownloadStep` | server/worker.js:41-56 | the download is one call to the signed URL, and the later calls follow in pipeline order |
| `Worker.Process` | server/worker.js:16-102 | a missing or empty pdfId or filePath fails with no external call; otherwise the first call is a signed URL for the filePath valid for 600 seconds; calls follow the pipeline order without gaps; a failure ends the job right after the call that failed; the split document is tagged with the job's pdfId |
| `Worker.SignedUrlFailureStopsJob` | server/worker.js:28-34 | a signing error, or a reply without a URL, fails the job after that single call |
| `Worker.SucceedsIffStepsSucceed` | server/worker.js:28-101 | a job succeeds if and only if the signing, download, parse, text check, split and index steps all succeed |
| `Worker.IndexingFollowsEveryStep` | server/worker.js:28-99 | indexing is the fifth call and happens only after signing, download, parsing, the text check and splitting all succeeded; it indexes exactly the splitter's chunks of the job's own text |
| `Worker.BlankTextIsNeverIndexed` | server/worker.js:58-60 | a PDF whose extracted text is blank fails the job, and nothing is indexed |

## Left out

- Supabase storage, BullMQ delivery, `pdf-parse`, `CharacterTextSplitter` (chunk size 500, overlap 100), Gemini embeddings, Qdrant search (k = 3 with the `metadata.pdfId` filter) and the Groq completion are opaque. Each is a function parameter that returns success or failure. The chat route records the retrieval request (query, pdfId, k = 3) and the completion's (context, question) arguments. The fixed wording of the system prompt is not modelled.
- `Date.now()`, the insertion time and Mongo's fresh `_id` are parameters. Timestamps are rendered in plain decimal. This is always the case for `Date.now()`, which stays below 8.64e15.
- Casting a query-string `pdfId` to an ObjectId is not modelled. In the server, a malformed id makes the Mongo query throw. In the model, ids are opaque strings compared by equality.
- `Server.HandleChat`: a query parameter given as an array or an object, and an answer whose content is `null`, are not modelled. The answer is a string.
- `ChatStore.AppendTurn`: Mongoose does not run schema validators on `findOneAndUpdate`, so the `required` content of a message is not enforced there. The model likewise accepts an empty assistant answer. `ChatStore.Valid` asks for non-empty content only on questions, which the route guarantees.
- `ChatStore.AppendTurn`: the model assumes Mongoose turns `$push` of a two-element array on a document-array path into an append of both elements, in order.
- The `createdAt`/`updatedAt` timestamps of `Chat` are not modelled because no route reads them.
- The order of records that share a `createdAt` is not promised by the listing. The model proves only newest-first order and the multiset of records.
- `PdfStore.Create`: the model checks the required fields, then the unique `_id` and `filePath`. Either failure gives HTTP 500, so which error Mongo reports does not matter.
- The storage object is not removed when a later upload step fails. The model reports the key written (`storedAt`) but does not model storage contents. A second upload to the same key is rejected by the storage service (`upsert: false`), which is part of the opaque storage result, and again by the unique `filePath` index.
- Database failures other than a validation error and a duplicate key are not modelled: the MongoDB store is assumed reachable. In the server, a rejected `Pdf.find` answers 500 (server/index.js:242-245), and so does a rejected `Chat.findOne` (server/index.js:223-229). `/pdfs/:pdfId` has no `try`/`catch` (server/index.js:248-261), so what a rejected `findOne` does there depends on the Express major version, which the source does not pin: under Express 4 it is an unhandled promise rejection, which on Node 15 and later ends the process; under Express 5 the router hands it to the default error handler, which answers 500.
- Concurrency is not modelled: two requests racing on the same upsert or insert, and the queue worker's consumer loop.
- Download timeout and size limits (15 s, 50 MB) are part of the opaque download result.
- Express, multer and CORS plumbing, the `requireAuth` middleware (its user id is a non-empty `UserId`), the `/` health route, server start-up, the worker's dummy HTTP server, logging, and the React client are not part of this model.

=== FILE: chat_store.dfy ===
/**
 The `Chat` collection: one conversation per PDF (the `pdfId` index is
 unique), owned by a user, holding an ordered list of id-less messages whose
 role is `user` or `assistant`.
 */
module ChatStore {
  import opened Results
  import opened JsText

  /** The `role` enum `["user", "assistant"]`. */
  datatype Role = User | Assistant

  datatype Message = Message(role: Role, content: JsString)

  datatype Chat = Chat(pdfId: JsString, userId: JsString, messages: seq<Message>)

  datatype Store = Store(chats: seq<Chat>)

  /** The stored text of a role. */
  function RoleName(role: Role): JsString
  {
    match role
    case User => Ascii("user")
    case Assistant => Ascii("assistant")
  }

  /** Casting a string to the enum: only the two listed names are accepted. */
  function ParseRole(s: JsString): (r: Option<Role>)
    ensures r.Some? <==> s == Ascii("user") || s == Ascii("assistant")
    ensures r.Some? ==> RoleName(r.value) == s
  {
    if s == Ascii("user") then Some(User)
    else if s == Ascii("assistant") then Some(Assistant)
    else None
  }

  /** Every role survives the trip to its stored name and back. */
  lemma RoleNameRoundTrip(role: Role)
    ensures ParseRole(RoleName(role)) == Some(role)
  {
    assert Ascii("user") != Ascii("assistant");
  }

  /**
   A conversation as the chat route builds it: question/answer pairs, the
   question first, and no empty question.
   */
  predicate IsDialogue(messages: seq<Message>)
  {
    && |messages| % 2 == 0
    && (forall i :: 0 <= i < |messages| ==>
          messages[i].role == (if i % 2 == 0 then User else Assistant))
    && (forall i :: 0 <= i < |messages| && i % 2 == 0 ==> |messages[i].content| > 0)
  }

  /** What the schema's indexes, its `required` paths and the chat route keep true. */
  predicate Valid(store: Store)
  {
    && (forall i :: 0 <= i < |store.chats| ==>
          |store.chats[i].pdfId| > 0 && |store.chats[i].userId| > 0
          && IsDialogue(store.chats[i].messages))
    && (forall i, j :: 0 <= i < j < |store.chats| ==> store.chats[i].pdfId != store.chats[j].pdfId)
  }

  /** The position of the conversation matching the filter `{ pdfId, userId }`. */
  function FindConversation(chats: seq<Chat>, pdfId: JsString, userId: JsString): (r: Option<nat>)
    ensures r.Some? ==> r.value < |chats| && chats[r.value].pdfId == pdfId && chats[r.value].userId == userId
    ensures r.Some? ==> forall k :: 0 <= k < r.value ==> !(chats[k].pdfId == pdfId && chats[k].userId == userId)
    ensures r.None? <==> forall k :: 0 <= k < |chats| ==> !(chats[k].pdfId == pdfId && chats[k].userId == userId)
  {
    if chats == [] then None
    else if chats[0].pdfId == pdfId && chats[0].userId == userId then Some(0)
    else match FindConversation(chats[1..], pdfId, userId)
      case None => None
      case Some(k) => Some(k + 1)
  }

  predicate PdfIdInUse(store: Store, pdfId: JsString)
  {
    exists i :: 0 <= i < |store.chats| && store.chats[i].pdfId == pdfId
  }

  /** The question/answer pair one successful chat appends. */
  function Turn(question: JsString, answer: JsString): seq<Message>
  {
    [Message(User, question), Message(Assistant, answer)]
  }

  /** Why an update is refused: the unique `pdfId` index. */
  datatype UpsertError = DuplicateKey

  /**
   `findOneAndUpdate({ pdfId, userId }, { $push: { messages: pair } }, { upsert: true })`.
   A matching conversation gets the pair appended. Without a match the upsert
   inserts a new conversation, which the unique `pdfId` index refuses when
   another user's conversation already holds that pdfId. Schema validators do
   not run on this update.
   */
  function AppendTurn(store: Store, pdfId: JsString, userId: JsString, question: JsString, answer: JsString)
    : (r: Result<Store, UpsertError>)
    ensures r.Err? <==> FindConversation(store.chats, pdfId, userId).None? && PdfIdInUse(store, pdfId)
    ensures r.Ok? ==> |r.value.chats| == |store.chats| + (if FindConversation(store.chats, pdfId, userId).Some? then 0 else 1)
    ensures r.Ok? ==> forall i :: 0 <= i < |store.chats| ==>
              r.value.chats[i].pdfId == store.chats[i].pdfId
              && r.value.chats[i].userId == store.chats[i].userId
              && r.value.chats[i].messages == store.chats[i].messages
                   + (if FindConversation(store.chats, pdfId, userId) == Some(i) then Turn(question, answer) else [])
    ensures r.Ok? && FindConversation(store.chats, pdfId, userId).None? ==>
              r.value.chats[|store.chats|] == Chat(pdfId, userId, Turn(question, answer))
  {
    match FindConversation(store.chats, pdfId, userId)
    case Some(i) =>
      var c := store.chats[i];
      Ok(Store(store.chats[i := Chat(c.pdfId, c.userId, c.messages + Turn(question, answer))]))
    case None =>
      if PdfIdInUse(store, pdfId) then Err(DuplicateKey)
      else Ok(Store(store.chats + [Chat(pdfId, userId, Turn(question, answer))]))
  }

  /**
   Appending keeps the collection valid when the route's guards hold: a
   non-empty pdfId and question, and an authenticated user.
   */
  lemma AppendTurnKeepsValid(store: Store, pdfId: JsString, userId: JsString, question: JsString, answer: JsString)
    requires Valid(store) && |pdfId| > 0 && |userId| > 0 && |question| > 0
    requires AppendTurn(store, pdfId, userId, question, answer).Ok?
    ensures Valid(AppendTurn(store, pdfId, userId, question, answer).value)
  {
    var after := AppendTurn(store, pdfId, userId, question, answer).value;
    var n := |store.chats|;
    match FindConversation(store.chats, pdfId, userId)
    case Some(i) =>
      DialogueExtends(store.chats[i].messages, question, answer);
      forall k | 0 <= k < n
        ensures after.chats[k].pdfId == store.chats[k].pdfId && after.chats[k].userId == store.chats[k].userId
        ensures IsDialogue(after.chats[k].messages)
      {
      }
    case None =>
      assert after.chats == store.chats + [Chat(pdfId, userId, Turn(question, answer))];
      DialogueExtends([], question, answer);
      assert [] + Turn(question, answer) == Turn(question, answer);
  }

  /** A dialogue followed by a turn with a non-empty question is still a dialogue. */
  lemma DialogueExtends(m: seq<Message>, question: JsString, answer: JsString)
    requires IsDialogue(m) && |question| > 0
    ensures IsDialogue(m + Turn(question, answer))
  {
    var turn := Turn(question, answer);
    assert forall i :: 0 <= i < |m| ==> (m + turn)[i] == m[i];
    assert (m + turn)[|m|] == turn[0] && (m + turn)[|m| + 1] == turn[1];
  }


  /** The stored messages of the `(pdfId, userId)` conversation, or none. */
  function History(store: Store, pdfId: JsString, userId: JsString): (r: seq<Message>)
    ensures FindConversation(store.chats, pdfId, userId).None? ==> r == []
    ensures Valid(store) ==>
              forall i :: 0 <= i < |store.chats| && store.chats[i].pdfId == pdfId && store.chats[i].userId == userId
                ==> r == store.chats[i].messages
  {
    match FindConversation(store.chats, pdfId, userId)
    case None => []
    case Some(i) =>
      assert Valid(store) ==> forall k :: 0 <= k < |store.chats| && store.chats[k].pdfId == pdfId ==> k == i;
      store.chats[i].messages
  }

  /**
   A successful append extends the asker's history by exactly the new
   question and answer, and leaves every other conversation's history as it was.
   */
  lemma HistoryAfterAppend(store: Store, pdfId: JsString, userId: JsString, question: JsString, answer: JsString)
    requires Valid(store) && |pdfId| > 0 && |userId| > 0 && |question| > 0
    requires AppendTurn(store, pdfId, userId, question, answer).Ok?
    ensures forall p, u :: History(AppendTurn(store, pdfId, userId, question, answer).value, p, u)
              == History(store, p, u) + (if p == pdfId && u == userId then Turn(question, answer) else [])
  {
    var after := AppendTurn(store, pdfId, userId, question, answer).value;
    AppendTurnKeepsValid(store, pdfId, userId, question, answer);
    forall p, u
      ensures History(after, p, u) == History(store, p, u) + (if p == pdfId && u == userId then Turn(question, answer) else [])
    {
      HistoryAfterAppendOf(store, pdfId, userId, question, answer, after, p, u);
    }
  }

  /** `HistoryAfterAppend` for one `(pdfId, userId)` filter `(p, u)`. */
  lemma HistoryAfterAppendOf(store: Store, pdfId: JsString, userId: JsString, question: JsString, answer: JsString,
                             after: Store, p: JsString, u: JsString)
    requires Valid(store) && Valid(after)
    requires AppendTurn(store, pdfId, userId, question, answer) == Ok(after)
    ensures History(after, p, u) == History(store, p, u) + (if p == pdfId && u == userId then Turn(question, answer) else [])
  {
    match FindConversation(store.chats, p, u)
    case Some(i) =>
      assert after.chats[i].pdfId == p && after.chats[i].userId == u;
      assert FindConversation(store.chats, pdfId, userId) == Some(i) <==> (p == pdfId && u == userId);
      assert History(after, p, u) == after.chats[i].messages;
    case None =>
      if p == pdfId && u == userId {
        assert after.chats[|store.chats|].pdfId == p && after.chats[|store.chats|].userId == u;
        assert History(after, p, u) == after.chats[|store.chats|].messages;
      } else {
        forall k | 0 <= k < |after.chats|
          ensures !(after.chats[k].pdfId == p && after.chats[k].userId == u)
        {
          if k < |store.chats| {
            assert after.chats[k].pdfId == store.chats[k].pdfId && after.chats[k].userId == store.chats[k].userId;
          }
        }
        assert FindConversation(after.chats, p, u).None?;
      }
  }


  /**
   With a conversation for the pdfId already held by another user, the upsert
   can neither join it nor create a second one: it fails and nothing changes.
   */
  lemma ForeignConversationBlocksUpsert(store: Store, pdfId: JsString, userId: JsString,
                                        question: JsString, answer: JsString, i: nat)
    requires Valid(store)
    requires i < |store.chats| && store.chats[i].pdfId == pdfId && store.chats[i].userId != userId
    ensures AppendTurn(store, pdfId, userId, question, answer) == Err(DuplicateKey)
  {
  }
}

=== FILE: context.dfy ===
/**
 The context handed to the language model: the retrieved chunk texts joined
 with a blank line and cut to the first 2000 code units.
 */
module Context {
  import opened JsText

  const ContextLimit: nat := 2000

  /** The separator `"\n\n"`. */
  const Separator: JsString := [0x0A, 0x0A]

  /**
   `parts.join(sep)`: the first part, then each later part after a separator.
   It is as long as its parts plus one separator between each neighbouring pair.
   */
  function Join(parts: seq<JsString>, sep: JsString): (r: JsString)
    ensures |parts| == 0 ==> r == []
    ensures |parts| == 1 ==> r == parts[0]
    ensures |parts| > 1 ==> IsPrefix(parts[0] + sep, r)
    ensures |parts| > 0 ==> |r| == SumLengths(parts) + (|parts| - 1) * |sep|
  {
    if |parts| == 0 then []
    else if |parts| == 1 then parts[0]
    else parts[0] + sep + Join(parts[1..], sep)
  }

  function SumLengths(parts: seq<JsString>): nat
  {
    if parts == [] then 0 else |parts[0]| + SumLengths(parts[1..])
  }

  /**
   Joining a longer list extends the join of its first `k` parts by a separator
   and the join of the rest: the earlier parts come first, in order.
   */
  lemma {:induction false} JoinSplit(parts: seq<JsString>, sep: JsString, k: nat)
    requires 0 < k < |parts|
    ensures Join(parts, sep) == Join(parts[..k], sep) + sep + Join(parts[k..], sep)
  {
    assert Join(parts, sep) == parts[0] + sep + Join(parts[1..], sep);
    if k == 1 {
      assert parts[..1] == [parts[0]] && parts[1..] == parts[k..];
    } else {
      JoinSplit(parts[1..], sep, k - 1);
      assert parts[1..][..k - 1] == parts[..k][1..];
      assert parts[1..][k - 1..] == parts[k..];
      assert Join(parts[..k], sep) == parts[0] + sep + Join(parts[..k][1..], sep);
    }
  }

  /** The join of the first `k` parts is a prefix of the join of all of them. */
  lemma JoinPrefix(parts: seq<JsString>, sep: JsString, k: nat)
    requires k <= |parts|
    ensures IsPrefix(Join(parts[..k], sep), Join(parts, sep))
  {
    if 0 < k < |parts| {
      JoinSplit(parts, sep, k);
    } else if k == |parts| {
      assert parts[..k] == parts;
    }
  }

  /** The prompt context for the retrieved chunk texts, in retrieval order. */
  function AssembleContext(chunks: seq<JsString>): (ctx: JsString)
    ensures |ctx| <= ContextLimit
    ensures IsPrefix(ctx, Join(chunks, Separator))
    ensures |Join(chunks, Separator)| <= ContextLimit ==> ctx == Join(chunks, Separator)
    ensures |Join(chunks, Separator)| > ContextLimit ==> |ctx| == ContextLimit
  {
    Take(Join(chunks, Separator), ContextLimit)
  }

  /**
   Whole chunks survive the cut: when the first `k` chunks joined fit in the
   limit, the context starts with exactly them, in retrieval order.
   */
  lemma ContextKeepsLeadingChunks(chunks: seq<JsString>, k: nat)
    requires k <= |chunks|
    requires |Join(chunks[..k], Separator)| <= ContextLimit
    ensures IsPrefix(Join(chunks[..k], Separator), AssembleContext(chunks))
  {
    JoinPrefix(chunks, Separator, k);
  }

  /** A first chunk of 2000 code units or more crowds out every other chunk. */
  lemma ContextOfLongFirstChunk(chunks: seq<JsString>)
    requires |chunks| > 0 && |chunks[0]| >= ContextLimit
    ensures AssembleContext(chunks) == chunks[0][..ContextLimit]
  {
    JoinPrefix(chunks, Separator, 1);
    assert chunks[..1] == [chunks[0]];
  }
}

=== FILE: documents.dfy ===
/** The LangChain document the worker indexes and the chat route retrieves. */
module Documents {
  import opened JsText

  /** A text with the metadata `{ pdfId }` that ties it to its PDF record. */
  datatype Document = Document(pageContent: JsString, pdfId: JsString)

  /** `docs.map((d) => d.pageContent)`. */
  function Texts(docs: seq<Document>): (texts: seq<JsString>)
    ensures |texts| == |docs|
    ensures forall i :: 0 <= i < |docs| ==> texts[i] == docs[i].pageContent
  {
    seq(|docs|, i requires 0 <= i < |docs| => docs[i].pageContent)
  }
}

=== FILE: jstext.dfy ===
/**
 JavaScript strings as the server sees them: sequences of UTF-16 code units.
 `String.prototype.replace` without the `u` flag, `.slice` and `.length` all
 count code units, so this is the unit in which lengths are stated.
 */
module JsText {
  import opened Results

  /** One UTF-16 code unit. */
  type CodeUnit = c: int | 0 <= c < 0x1_0000

  type JsString = seq<CodeUnit>

  /** One byte of a Node.js `Buffer`. */
  type Byte = b: int | 0 <= b < 0x100

  type Bytes = seq<Byte>

  /** The code units of an ASCII Dafny literal, so that constants read as text. */
  function Ascii(s: string): (r: JsString)
    requires forall i :: 0 <= i < |s| ==> s[i] as int < 0x80
    ensures |r| == |s|
  {
    seq(|s|, i requires 0 <= i < |s| => s[i] as int)
  }

  /** JavaScript truthiness of an optional string: present and not "". */
  predicate Truthy(o: Option<JsString>)
  {
    o.Some? && |o.value| > 0
  }

  /** `p` is a prefix of `s`. */
  predicate IsPrefix(p: JsString, s: JsString)
  {
    |p| <= |s| && s[..|p|] == p
  }

  /** `s.slice(0, n)`: the first `n` code units, or all of `s` when it is shorter. */
  function Take(s: JsString, n: nat): (r: JsString)
    ensures IsPrefix(r, s)
    ensures |r| == if |s| <= n then |s| else n
  {
    if |s| <= n then s else s[..n]
  }

  // ---------------------------------------------------------------------------
  // Decimal rendering of a non-negative integer (template-literal interpolation
  // of `Date.now()`).

  const Zero: CodeUnit := 0x30

  predicate IsDigit(c: CodeUnit)
  {
    0x30 <= c <= 0x39
  }

  predicate AllDigits(s: JsString)
  {
    forall i :: 0 <= i < |s| ==> IsDigit(s[i])
  }

  /** The decimal digits of `n`, most significant first, without leading zeros. */
  function Decimal(n: nat): (r: JsString)
    ensures |r| > 0
    ensures AllDigits(r)
    ensures r[0] == Zero ==> n == 0 && r == [Zero]
    decreases n
  {
    if n < 10 then [Zero + n] else Decimal(n / 10) + [Zero + n % 10]
  }

  /** The number a string of decimal digits denotes. */
  function DigitsValue(s: JsString): nat
    requires AllDigits(s)
  {
    if s == [] then 0 else DigitsValue(s[..|s| - 1]) * 10 + (s[|s| - 1] - Zero)
  }

  /** Reading back a rendered number gives the number. */
  lemma {:induction false} DecimalRoundTrip(n: nat)
    ensures DigitsValue(Decimal(n)) == n
    decreases n
  {
    if n >= 10 {
      DecimalRoundTrip(n / 10);
      var d := Decimal(n);
      assert d[..|d| - 1] == Decimal(n / 10);
    }
  }

  /** Two timestamps render to the same text only if they are equal. */
  lemma DecimalInjective(m: nat, n: nat)
    requires Decimal(m) == Decimal(n)
    ensures m == n
  {
    DecimalRoundTrip(m);
    DecimalRoundTrip(n);
  }

  // ---------------------------------------------------------------------------
  // `String.prototype.trim`: the ECMAScript WhiteSpace and LineTerminator code
  // points, removed from both ends.

  predicate IsWhiteSpace(c: CodeUnit)
  {
    || c == 0x09 || c == 0x0B || c == 0x0C || c == 0x20 || c == 0xA0 || c == 0xFEFF
    || c == 0x1680 || (0x2000 <= c <= 0x200A) || c == 0x202F || c == 0x205F || c == 0x3000
    || c == 0x0A || c == 0x0D || c == 0x2028 || c == 0x2029
  }

  /** Every code unit of `s` is white space (vacuously so for ""). */
  predicate IsBlank(s: JsString)
  {
    forall i :: 0 <= i < |s| ==> IsWhiteSpace(s[i])
  }

  /** `s` with its leading white space removed. */
  function TrimStart(s: JsString): (r: JsString)
    ensures |r| <= |s| && r == s[|s| - |r|..]
    ensures IsBlank(s[..|s| - |r|])
    ensures r == [] || !IsWhiteSpace(r[0])
  {
    if s != [] && IsWhiteSpace(s[0]) then TrimStart(s[1..]) else s
  }

  /** `s` with its trailing white space removed. */
  function TrimEnd(s: JsString): (r: JsString)
    ensures |r| <= |s| && r == s[..|r|]
    ensures IsBlank(s[|r|..])
    ensures r == [] || !IsWhiteSpace(r[|r| - 1])
  {
    if s != [] && IsWhiteSpace(s[|s| - 1]) then TrimEnd(s[..|s| - 1]) else s
  }

  /** `r` is the run of `s` starting at `a`, with only white space before and after it. */
  predicate IsRunBetweenBlanks(s: JsString, a: nat, r: JsString)
  {
    a + |r| <= |s| && r == s[a..a + |r|] && IsBlank(s[..a]) && IsBlank(s[a + |r|..])
  }

  /**
   `s.trim()`: a run of `s` that neither starts nor ends with white space,
   with only white space cut away before and after it.
   */
  function Trim(s: JsString): (r: JsString)
    ensures |r| <= |s|
    ensures r == [] || (!IsWhiteSpace(r[0]) && !IsWhiteSpace(r[|r| - 1]))
    ensures exists a :: IsRunBetweenBlanks(s, a, r)
  {
    var t := TrimStart(s);
    var r := TrimEnd(t);
    var a := |s| - |t|;
    assert t == s[a..] && r == t[..|r|];
    PrefixOfSuffix(s, a, r);
    assert r != [] ==> r[0] == t[0];
    assert IsRunBetweenBlanks(s, a, r);
    r
  }

  /** A prefix `r` of a suffix `s[a..]`, followed there by white space only, is the slice `s[a..a + |r|]`. */
  lemma PrefixOfSuffix(s: JsString, a: nat, r: JsString)
    requires a <= |s| && |r| <= |s| - a && r == s[a..][..|r|]
    requires IsBlank(s[a..][|r|..])
    ensures r == s[a..a + |r|] && IsBlank(s[a + |r|..])
  {
    assert s[a..][|r|..] == s[a + |r|..];
  }

  /** `s.trim()` is "" exactly when `s` consists of white space only. */
  lemma TrimEmptyIffBlank(s: JsString)
    ensures Trim(s) == [] <==> IsBlank(s)
  {
    var t := TrimStart(s);
    if Trim(s) == [] {
      assert IsBlank(t[0..]);
      assert t == [];
      assert s[..|s|] == s;
    }
  }
}

=== FILE: pdf_store.dfy ===
/**
 The `Pdf` collection: one record per uploaded file, with required string
 fields, a unique `filePath`, Mongo's unique `_id` and the `createdAt` /
 `updatedAt` timestamps. Lookups and listings are scoped to one user.
 */
module PdfStore {
  import opened Results
  import opened JsText

  /**
   A Mongo ObjectId as `_id.toString()` renders it. Mongo renders 24 hex digits;
   the model fixes only the length, 24 code units, and compares ids by equality.
   */
  type ObjectId = s: JsString | |s| == 24 witness seq(24, i => 0x30)

  datatype Pdf = Pdf(
    id: ObjectId,
    userId: JsString,
    originalName: JsString,
    filePath: JsString,
    pdfUrl: JsString,
    createdAt: nat,
    updatedAt: nat)

  /** The fields the upload route supplies to `Pdf.create`. */
  datatype NewPdf = NewPdf(userId: JsString, originalName: JsString, filePath: JsString, pdfUrl: JsString)

  datatype Store = Store(records: seq<Pdf>)

  /** Why an insert is refused: schema validation, or a unique index. */
  datatype DbError = ValidationFailed | DuplicateKey

  /** A `required` string path rejects a missing value and the empty string alike. */
  predicate HasRequiredFields(userId: JsString, originalName: JsString, filePath: JsString, pdfUrl: JsString)
  {
    |userId| > 0 && |originalName| > 0 && |filePath| > 0 && |pdfUrl| > 0
  }

  predicate IdInUse(store: Store, id: JsString)
  {
    exists i :: 0 <= i < |store.records| && store.records[i].id == id
  }

  predicate FilePathInUse(store: Store, filePath: JsString)
  {
    exists i :: 0 <= i < |store.records| && store.records[i].filePath == filePath
  }

  /** What the schema and its indexes guarantee of every stored collection. */
  predicate Valid(store: Store)
  {
    && (forall i :: 0 <= i < |store.records| ==>
          var p := store.records[i];
          HasRequiredFields(p.userId, p.originalName, p.filePath, p.pdfUrl)
          && p.createdAt <= p.updatedAt)
    && (forall i, j :: 0 <= i < j < |store.records| ==> store.records[i].id != store.records[j].id)
    && (forall i, j :: 0 <= i < j < |store.records| ==>
          store.records[i].filePath != store.records[j].filePath)
  }

  datatype Created = Created(store: Store, pdf: Pdf)

  /**
   `Pdf.create`: validate the required fields, then insert under the fresh
   `_id` unless the id or the file path is already taken. Both timestamps are
   the insertion time.
   */
  function Create(store: Store, fields: NewPdf, id: ObjectId, now: nat): (r: Result<Created, DbError>)
    ensures r.Ok? <==>
              HasRequiredFields(fields.userId, fields.originalName, fields.filePath, fields.pdfUrl)
              && !IdInUse(store, id) && !FilePathInUse(store, fields.filePath)
    ensures r.Err? && r.error == ValidationFailed <==>
              !HasRequiredFields(fields.userId, fields.originalName, fields.filePath, fields.pdfUrl)
    ensures r.Ok? ==>
              && r.value.store.records == store.records + [r.value.pdf]
              && r.value.pdf == Pdf(id, fields.userId, fields.originalName, fields.filePath,
                                    fields.pdfUrl, now, now)
    ensures r.Ok? && Valid(store) ==> Valid(r.value.store)
  {
    if !HasRequiredFields(fields.userId, fields.originalName, fields.filePath, fields.pdfUrl) then
      Err(ValidationFailed)
    else if IdInUse(store, id) || FilePathInUse(store, fields.filePath) then
      Err(DuplicateKey)
    else
      var p := Pdf(id, fields.userId, fields.originalName, fields.filePath, fields.pdfUrl, now, now);
      Ok(Created(Store(store.records + [p]), p))
  }

  /** A second record with a path already stored is refused, whoever asks. */
  lemma DuplicatePathRejected(store: Store, fields: NewPdf, id: ObjectId, now: nat)
    requires FilePathInUse(store, fields.filePath)
    ensures Create(store, fields, id, now).Err?
  {
  }

  // ---------------------------------------------------------------------------
  // `Pdf.findOne({ _id, userId })`

  /** The first record with this id that belongs to this user. */
  function FindOwned(records: seq<Pdf>, id: JsString, userId: JsString): (r: Option<Pdf>)
    ensures r.Some? ==> r.value in records && r.value.id == id && r.value.userId == userId
    ensures r.None? <==> forall p :: p in records ==> !(p.id == id && p.userId == userId)
  {
    if records == [] then None
    else if records[0].id == id && records[0].userId == userId then Some(records[0])
    else FindOwned(records[1..], id, userId)
  }

  /** A record owned by someone else is never found for the requester. */
  lemma FindOwnedIgnoresOtherUsers(store: Store, id: JsString, userId: JsString)
    requires Valid(store)
    requires exists p :: p in store.records && p.id == id && p.userId != userId
    ensures FindOwned(store.records, id, userId).None?
  {
    var q :| q in store.records && q.id == id && q.userId != userId;
    var j :| 0 <= j < |store.records| && store.records[j] == q;
    forall p | p in store.records
      ensures !(p.id == id && p.userId == userId)
    {
      var i :| 0 <= i < |store.records| && store.records[i] == p;
      if i != j {
        assert p.id != q.id;
      }
    }
  }

  // ---------------------------------------------------------------------------
  // `Pdf.find({ userId }).sort({ createdAt: -1 })`

  /** The records of one user, in stored order. */
  function OwnedBy(records: seq<Pdf>, userId: JsString): (r: seq<Pdf>)
    ensures forall p :: p in r <==> p in records && p.userId == userId
    ensures forall p :: multiset(r)[p] == if p.userId == userId then multiset(records)[p] else 0
  {
    if records == [] then []
    else
      var rest := OwnedBy(records[1..], userId);
      assert records == [records[0]] + records[1..];
      if records[0].userId == userId then [records[0]] + rest else rest
  }

  predicate NewestFirst(s: seq<Pdf>)
  {
    forall i, j :: 0 <= i < j < |s| ==> s[i].createdAt >= s[j].createdAt
  }

  /** Inserts `p` into a newest-first list in front of the first record no newer than it. */
  function InsertByAge(p: Pdf, s: seq<Pdf>): (r: seq<Pdf>)
    requires NewestFirst(s)
    ensures NewestFirst(r)
    ensures forall x :: x in r ==> x == p || x in s
  {
    if s == [] || s[0].createdAt <= p.createdAt then [p] + s
    else
      var rest := InsertByAge(p, s[1..]);
      var r := [s[0]] + rest;
      assert s == [s[0]] + s[1..];
      assert NewestFirst(r) by {
        forall i, j | 0 <= i < j < |r|
          ensures r[i].createdAt >= r[j].createdAt
        {
          if i == 0 {
            assert r[j] in rest;
            if r[j] != p {
              var k :| 0 <= k < |s[1..]| && s[1..][k] == r[j];
              assert s[k + 1] == r[j];
            }
          } else {
            assert r[i] == rest[i - 1] && r[j] == rest[j - 1];
          }
        }
      }
      r
  }

  /** Inserting adds `p` and loses nothing. */
  lemma {:induction false} InsertByAgePermutes(p: Pdf, s: seq<Pdf>)
    requires NewestFirst(s)
    ensures multiset(InsertByAge(p, s)) == multiset(s) + multiset{p}
  {
    if s != [] && s[0].createdAt > p.createdAt {
      InsertByAgePermutes(p, s[1..]);
      assert s == [s[0]] + s[1..];
    }
  }

  /** The records sorted newest first. */
  function SortNewestFirst(s: seq<Pdf>): (r: seq<Pdf>)
    ensures NewestFirst(r)
    ensures multiset(r) == multiset(s)
  {
    if s == [] then []
    else
      assert s == [s[0]] + s[1..];
      InsertByAgePermutes(s[0], SortNewestFirst(s[1..]));
      InsertByAge(s[0], SortNewestFirst(s[1..]))
  }

  /**
   The listing: every record of the user and nothing else, each as often as it
   is stored, newest `createdAt` first.
   */
  function ListOwned(store: Store, userId: JsString): (r: seq<Pdf>)
    ensures forall p :: p in r ==> p.userId == userId
    ensures forall p :: p in store.records && p.userId == userId ==> p in r
    ensures forall p :: multiset(r)[p] == if p.userId == userId then multiset(store.records)[p] else 0
    ensures NewestFirst(r)
  {
    var r := SortNewestFirst(OwnedBy(store.records, userId));
    assert forall p :: p in r <==> p in OwnedBy(store.records, userId) by {
      forall p ensures p in r <==> p in OwnedBy(store.records, userId) {
        assert p in r <==> multiset(r)[p] > 0;
      }
    }
    r
  }
}

=== FILE: queue.dfy ===
/** The message the upload route puts on the queue for the worker. */
module Queue {
  import opened Results
  import opened JsText

  /** `job.data`; a field the producer left out reads as `undefined`. */
  datatype JobData = JobData(pdfId: Option<JsString>, filePath: Option<JsString>)

  datatype Job = Job(name: JsString, data: JobData)

  /** The job name the upload route uses. */
  function FileReady(): JsString
  {
    Ascii("file-ready")
  }
}

=== FILE: results.dfy ===
/** Failure-carrying values shared by every part of the model. */
module Results {

  /** A value that may be absent: JavaScript's `undefined` / `null`. */
  datatype Option<+T> = None | Some(value: T)

  /** The outcome of an operation that either succeeds with a value or fails with an error. */
  datatype Result<+T, +E> = Ok(value: T) | Err(error: E)
}

=== FILE: server.dfy ===
/**
 The Express routes' own decision logic over the two collections, the job
 queue and the external services. Each handler takes the collections as they
 are and returns the response together with the collections as they are left.
 */
module Server {
  import opened Results
  import opened JsText
  import opened UploadPath
  import opened Documents
  import opened Queue
  import Context
  import PdfStore
  import ChatStore

  /** The id the authentication middleware attaches to every request. */
  type UserId = s: JsString | |s| > 0 witness [0x75]

  // ---------------------------------------------------------------------------
  // POST /upload/pdf

  /** The multer file: original name and bytes held in memory. */
  datatype UploadedFile = UploadedFile(originalName: JsString, buffer: Bytes)

  /** The external services the upload route calls. */
  datatype UploadServices = UploadServices(
    putObject: (JsString, Bytes) -> bool,   // storage upload with `upsert: false`; false is an error
    publicUrl: JsString -> JsString,        // `getPublicUrl(filePath).data.publicUrl`
    enqueue: Job -> bool)                   // `queue.add`; false is a rejection

  /** What the environment supplies: `Date.now()` for the key, the insertion time, Mongo's fresh `_id`. */
  datatype UploadEnv = UploadEnv(now: nat, insertedAt: nat, newId: PdfStore.ObjectId)

  datatype UploadResponse =
    | NoPdfUploaded
    | Uploaded(pdfId: PdfStore.ObjectId, originalName: JsString, pdfUrl: JsString)
    | UploadFailed

  function UploadStatus(r: UploadResponse): nat
  {
    match r
    case NoPdfUploaded => 400
    case Uploaded(_, _, _) => 200
    case UploadFailed => 500
  }

  /** The response, the collection and queue afterwards, and the storage key written, if any. */
  datatype UploadOutcome = UploadOutcome(
    response: UploadResponse,
    pdfs: PdfStore.Store,
    queue: seq<Job>,
    storedAt: Option<JsString>)

  /**
   The job the upload route enqueues for a new record: it names the record and
   its storage key, and the id always passes the worker's non-empty check.
   */
  function JobFor(pdf: PdfStore.Pdf): (job: Job)
    ensures job.name == FileReady() && |job.name| > 0
    ensures Truthy(job.data.pdfId) && job.data.pdfId.value == pdf.id
    ensures job.data.filePath == Some(pdf.filePath)
    ensures Truthy(job.data.filePath) <==> |pdf.filePath| > 0
  {
    Job(FileReady(), JobData(Some(pdf.id), Some(pdf.filePath)))
  }

  /**
   The three steps of an upload that can fail all succeed: the storage write of
   the key, the insert of the record with the key's public URL, and the enqueue
   of that record's job.
   */
  predicate UploadStepsSucceed(userId: UserId, f: UploadedFile, env: UploadEnv,
                               pdfs: PdfStore.Store, svc: UploadServices)
  {
    var path := StoragePath(userId, env.now, f.originalName);
    && svc.putObject(path, f.buffer)
    && var created := PdfStore.Create(pdfs, PdfStore.NewPdf(userId, f.originalName, path, svc.publicUrl(path)),
                                      env.newId, env.insertedAt);
    && created.Ok?
    && svc.enqueue(JobFor(created.value.pdf))
  }

  function Upload(userId: UserId, file: Option<UploadedFile>, env: UploadEnv,
                  pdfs: PdfStore.Store, queue: seq<Job>, svc: UploadServices): (out: UploadOutcome)
    ensures UploadStatus(out.response) == 400 <==> file.None?
    ensures file.None? ==> out == UploadOutcome(NoPdfUploaded, pdfs, queue, None)
    ensures file.Some? ==>
              (out.response.Uploaded? <==> UploadStepsSucceed(userId, file.value, env, pdfs, svc))
    ensures file.Some? ==>
              var path := StoragePath(userId, env.now, file.value.originalName);
              && (out.storedAt.Some? <==> svc.putObject(path, file.value.buffer))
              && (out.storedAt.Some? ==> out.storedAt.value == path)
              && (out.response.Uploaded? ==> out.response.pdfUrl == svc.publicUrl(path))
    ensures file.Some? ==>
              var path := StoragePath(userId, env.now, file.value.originalName);
              var created := PdfStore.Create(pdfs, PdfStore.NewPdf(userId, file.value.originalName, path,
                                                                   svc.publicUrl(path)), env.newId, env.insertedAt);
              out.pdfs == if svc.putObject(path, file.value.buffer) && created.Ok? then created.value.store else pdfs
    ensures out.response.Uploaded? ==>
              && file.Some?
              && |out.pdfs.records| == |pdfs.records| + 1
              && out.pdfs.records[..|pdfs.records|] == pdfs.records
              && var pdf := out.pdfs.records[|pdfs.records|];
              && pdf.id == out.response.pdfId
              && pdf.userId == userId
              && pdf.originalName == file.value.originalName == out.response.originalName
              && pdf.filePath == StoragePath(userId, env.now, file.value.originalName)
              && pdf.pdfUrl == out.response.pdfUrl
              && pdf.createdAt == env.insertedAt
              && out.queue == queue + [JobFor(pdf)]
              && out.storedAt == Some(pdf.filePath)
    ensures !out.response.Uploaded? ==> out.queue == queue
    ensures out.pdfs == pdfs
            || (|out.pdfs.records| == |pdfs.records| + 1 && out.pdfs.records[..|pdfs.records|] == pdfs.records)
    ensures out.pdfs != pdfs ==> out.storedAt.Some?
    ensures PdfStore.Valid(pdfs) ==> PdfStore.Valid(out.pdfs)
  {
    match file
    case None => UploadOutcome(NoPdfUploaded, pdfs, queue, None)
    case Some(f) =>
      var filePath := StoragePath(userId, env.now, f.originalName);
      if !svc.putObject(filePath, f.buffer) then UploadOutcome(UploadFailed, pdfs, queue, None)
      else
        var pdfUrl := svc.publicUrl(filePath);
        match PdfStore.Create(pdfs, PdfStore.NewPdf(userId, f.originalName, filePath, pdfUrl), env.newId, env.insertedAt)
        case Err(_) => UploadOutcome(UploadFailed, pdfs, queue, Some(filePath))
        case Ok(created) =>
          assert created.store.records[..|pdfs.records|] == pdfs.records;
          var job := JobFor(created.pdf);
          if !svc.enqueue(job) then UploadOutcome(UploadFailed, created.store, queue, Some(filePath))
          else UploadOutcome(Uploaded(created.pdf.id, created.pdf.originalName, pdfUrl),
                             created.store, queue + [job], Some(filePath))
  }

  /**
   A second upload that lands on a stored key (same user, same millisecond,
   names that sanitise alike) fails and adds no record and no job.
   */
  lemma UploadToTakenPathFails(userId: UserId, file: UploadedFile, env: UploadEnv,
                               pdfs: PdfStore.Store, queue: seq<Job>, svc: UploadServices)
    requires PdfStore.FilePathInUse(pdfs, StoragePath(userId, env.now, file.originalName))
    ensures var out := Upload(userId, Some(file), env, pdfs, queue, svc);
            out.response == UploadFailed && out.pdfs == pdfs && out.queue == queue
  {
  }

  /**
   When the queue refuses the job, the record stays behind: the route answers
   500, yet the PDF is listed and no worker will ever index it.
   */
  lemma QueueFailureLeavesRecord(userId: UserId, file: UploadedFile, env: UploadEnv,
                                 pdfs: PdfStore.Store, queue: seq<Job>, svc: UploadServices)
    requires svc.putObject(StoragePath(userId, env.now, file.originalName), file.buffer)
    requires PdfStore.Create(pdfs, PdfStore.NewPdf(userId, file.originalName,
               StoragePath(userId, env.now, file.originalName),
               svc.publicUrl(StoragePath(userId, env.now, file.originalName))), env.newId, env.insertedAt).Ok?
    requires forall job :: !svc.enqueue(job)
    ensures var out := Upload(userId, Some(file), env, pdfs, queue, svc);
            && out.response == UploadFailed
            && out.queue == queue
            && |out.pdfs.records| == |pdfs.records| + 1
            && out.pdfs.records[|pdfs.records|] in PdfStore.ListOwned(out.pdfs, userId)
  {
  }

  // ---------------------------------------------------------------------------
  // GET /chat

  /** The retriever's request: the question, the `metadata.pdfId` filter and `k`. */
  datatype RetrievalQuery = RetrievalQuery(query: JsString, pdfId: JsString, k: nat)

  /** How many chunks the retriever asks for. */
  const RetrievedChunks: nat := 3

  /** The external services the chat route calls. */
  datatype ChatServices = ChatServices(
    retrieve: RetrievalQuery -> Option<seq<Document>>,     // embeddings + Qdrant similarity search
    complete: (JsString, JsString) -> Option<JsString>)    // Groq completion for (context, question)

  datatype ChatCall =
    | Retrieve(request: RetrievalQuery)
    | Complete(context: JsString, question: JsString)

  datatype ChatResponse =
    | ChatBadRequest
    | ChatAnswer(answer: JsString, docs: seq<Document>)
    | ChatFailed

  function ChatStatus(r: ChatResponse): nat
  {
    match r
    case ChatBadRequest => 400
    case ChatAnswer(_, _) => 200
    case ChatFailed => 500
  }

  datatype ChatOutcome = ChatOutcome(response: ChatResponse, chats: ChatStore.Store, calls: seq<ChatCall>)

  /**
   The steps of a chat that can fail all succeed: retrieval, the completion over
   the context assembled from the retrieved chunks, and the upsert of the turn.
   */
  predicate ChatStepsSucceed(userId: UserId, question: JsString, pdfId: JsString,
                             chats: ChatStore.Store, svc: ChatServices)
  {
    var retrieved := svc.retrieve(RetrievalQuery(question, pdfId, RetrievedChunks));
    && retrieved.Some?
    && var answer := svc.complete(Context.AssembleContext(Texts(retrieved.value)), question);
    && answer.Some?
    && ChatStore.AppendTurn(chats, pdfId, userId, question, answer.value).Ok?
  }

  function HandleChat(userId: UserId, message: Option<JsString>, pdfId: Option<JsString>,
                      chats: ChatStore.Store, svc: ChatServices): (out: ChatOutcome)
    ensures ChatStatus(out.response) == 400 <==> !Truthy(message) || !Truthy(pdfId)
    ensures !Truthy(message) || !Truthy(pdfId) ==> out == ChatOutcome(ChatBadRequest, chats, [])
    ensures Truthy(message) && Truthy(pdfId) ==>
              (out.response.ChatAnswer? <==> ChatStepsSucceed(userId, message.value, pdfId.value, chats, svc))
    ensures forall i :: 0 <= i < |out.calls| && out.calls[i].Complete? ==>
              && Truthy(message) && Truthy(pdfId)
              && var retrieved := svc.retrieve(RetrievalQuery(message.value, pdfId.value, RetrievedChunks));
              && retrieved.Some?
              && out.calls[i].context == Context.AssembleContext(Texts(retrieved.value))
    ensures Truthy(message) && Truthy(pdfId) ==>
              var request := RetrievalQuery(message.value, pdfId.value, RetrievedChunks);
              out.calls == [Retrieve(request)]
                           + (if svc.retrieve(request).Some?
                              then [Complete(Context.AssembleContext(Texts(svc.retrieve(request).value)), message.value)]
                              else [])
    ensures out.response.ChatAnswer? ==>
              svc.complete(Context.AssembleContext(Texts(out.response.docs)), message.value)
                == Some(out.response.answer)
    ensures !out.response.ChatAnswer? ==> out.chats == chats
    ensures Truthy(message) && Truthy(pdfId) ==>
              |out.calls| > 0 && out.calls[0] == Retrieve(RetrievalQuery(message.value, pdfId.value, RetrievedChunks))
    ensures forall i :: 0 <= i < |out.calls| && out.calls[i].Complete? ==>
              |out.calls[i].context| <= Context.ContextLimit && out.calls[i].question == message.value
    ensures out.response.ChatAnswer? ==>
              && Truthy(message) && Truthy(pdfId)
              && svc.retrieve(RetrievalQuery(message.value, pdfId.value, RetrievedChunks)) == Some(out.response.docs)
              && out.calls == [Retrieve(RetrievalQuery(message.value, pdfId.value, RetrievedChunks)),
                               Complete(Context.AssembleContext(Texts(out.response.docs)), message.value)]
    ensures out.response.ChatAnswer? ==>
              ChatStore.AppendTurn(chats, pdfId.value, userId, message.value, out.response.answer) == Ok(out.chats)
  {
    if !Truthy(message) || !Truthy(pdfId) then ChatOutcome(ChatBadRequest, chats, [])
    else
      var question, id := message.value, pdfId.value;
      var request := RetrievalQuery(question, id, RetrievedChunks);
      match svc.retrieve(request)
      case None => ChatOutcome(ChatFailed, chats, [Retrieve(request)])
      case Some(docs) =>
        var context := Context.AssembleContext(Texts(docs));
        var calls := [Retrieve(request), Complete(context, question)];
        match svc.complete(context, question)
        case None => ChatOutcome(ChatFailed, chats, calls)
        case Some(answer) =>
          match ChatStore.AppendTurn(chats, id, userId, question, answer)
          case Err(_) => ChatOutcome(ChatFailed, chats, calls)
          case Ok(after) => ChatOutcome(ChatAnswer(answer, docs), after, calls)
  }

  /**
   An answered question extends the asker's `(pdfId, userId)` history by the
   question and the answer and changes no other history; the collection stays valid.
   */
  lemma ChatExtendsHistory(userId: UserId, message: Option<JsString>, pdfId: Option<JsString>,
                           chats: ChatStore.Store, svc: ChatServices)
    requires ChatStore.Valid(chats)
    ensures var out := HandleChat(userId, message, pdfId, chats, svc);
            && ChatStore.Valid(out.chats)
            && (out.response.ChatAnswer? ==>
                  forall p, u :: ChatStore.History(out.chats, p, u)
                    == ChatStore.History(chats, p, u)
                       + (if p == pdfId.value && u == userId
                          then ChatStore.Turn(message.value, out.response.answer) else []))
  {
    var out := HandleChat(userId, message, pdfId, chats, svc);
    if out.response.ChatAnswer? {
      ChatStore.AppendTurnKeepsValid(chats, pdfId.value, userId, message.value, out.response.answer);
      ChatStore.HistoryAfterAppend(chats, pdfId.value, userId, message.value, out.response.answer);
    }
  }

  /**
   The route does not check that the asker owns the PDF. Whoever chats about a
   pdfId first holds its one conversation, and the owner's later questions fail.
   */
  lemma FirstAskerHoldsConversation(chats: ChatStore.Store, pdfId: JsString, owner: UserId, other: UserId,
                                    q1: JsString, q2: JsString, svc: ChatServices)
    requires ChatStore.Valid(chats) && !ChatStore.PdfIdInUse(chats, pdfId)
    requires |pdfId| > 0 && |q1| > 0 && |q2| > 0 && owner != other
    requires forall r :: svc.retrieve(r).Some?
    requires forall c, q :: svc.complete(c, q).Some?
    ensures var first := HandleChat(other, Some(q1), Some(pdfId), chats, svc);
            && first.response.ChatAnswer?
            && HandleChat(owner, Some(q2), Some(pdfId), first.chats, svc).response == ChatFailed
  {
    var first := HandleChat(other, Some(q1), Some(pdfId), chats, svc);
    var n := |chats.chats|;
    assert first.chats.chats[n].pdfId == pdfId && first.chats.chats[n].userId == other;
    ChatStore.ForeignConversationBlocksUpsert(first.chats, pdfId, owner, q2,
      svc.complete(Context.AssembleContext(Texts(svc.retrieve(RetrievalQuery(q2, pdfId, RetrievedChunks)).value)), q2).value, n);
  }

  /** One request to the chat route: the authenticated user and the two query parameters. */
  datatype ChatRequest = ChatRequest(userId: UserId, message: Option<JsString>, pdfId: Option<JsString>)

  /** The `Chat` collection after the chat route has served the requests in order. */
  function ServeChats(requests: seq<ChatRequest>, chats: ChatStore.Store, svc: ChatServices): ChatStore.Store
    decreases |requests|
  {
    if requests == [] then chats
    else
      var r := requests[0];
      ServeChats(requests[1..], HandleChat(r.userId, r.message, r.pdfId, chats, svc).chats, svc)
  }

  /**
   However many chat requests are served, from whichever users, no pdfId ever
   gets a second conversation and the collection stays valid. The uniqueness
   is part of `ChatStore.Valid`; it is spelled out here because it is the
   property the unique `pdfId` index promises.
   */
  lemma {:induction false} ChatsKeepOneConversationPerPdf(requests: seq<ChatRequest>, chats: ChatStore.Store,
                                                          svc: ChatServices)
    requires ChatStore.Valid(chats)
    ensures var after := ServeChats(requests, chats, svc);
            && ChatStore.Valid(after)
            && forall i, j :: 0 <= i < j < |after.chats| ==> after.chats[i].pdfId != after.chats[j].pdfId
    decreases |requests|
  {
    if requests != [] {
      var r := requests[0];
      ChatExtendsHistory(r.userId, r.message, r.pdfId, chats, svc);
      ChatsKeepOneConversationPerPdf(requests[1..], HandleChat(r.userId, r.message, r.pdfId, chats, svc).chats, svc);
    }
  }

  // ---------------------------------------------------------------------------
  // GET /chat/history

  datatype HistoryResponse = HistoryBadRequest | HistoryMessages(messages: seq<ChatStore.Message>)

  function HandleHistory(userId: UserId, pdfId: Option<JsString>, chats: ChatStore.Store): (r: HistoryResponse)
    ensures r == HistoryBadRequest <==> !Truthy(pdfId)
    ensures Truthy(pdfId) && ChatStore.FindConversation(chats.chats, pdfId.value, userId).None? ==>
              r == HistoryMessages([])
    ensures r.HistoryMessages? && ChatStore.Valid(chats) ==>
              forall i :: 0 <= i < |chats.chats| && chats.chats[i].pdfId == pdfId.value && chats.chats[i].userId == userId
                ==> r.messages == chats.chats[i].messages
  {
    if !Truthy(pdfId) then HistoryBadRequest
    else HistoryMessages(ChatStore.History(chats, pdfId.value, userId))
  }

  /** A question answered by the chat route shows up at the end of the asker's history. */
  lemma AnsweredChatAppearsInHistory(userId: UserId, message: Option<JsString>, pdfId: Option<JsString>,
                                     chats: ChatStore.Store, svc: ChatServices)
    requires ChatStore.Valid(chats)
    requires HandleChat(userId, message, pdfId, chats, svc).response.ChatAnswer?
    ensures var out := HandleChat(userId, message, pdfId, chats, svc);
            && HandleHistory(userId, pdfId, chats).HistoryMessages?
            && HandleHistory(userId, pdfId, out.chats)
               == HistoryMessages(HandleHistory(userId, pdfId, chats).messages
                                  + [ChatStore.Message(ChatStore.User, message.value),
                                     ChatStore.Message(ChatStore.Assistant, out.response.answer)])
  {
    ChatExtendsHistory(userId, message, pdfId, chats, svc);
  }

  // ---------------------------------------------------------------------------
  // GET /pdfs and GET /pdfs/:pdfId

  function HandleListPdfs(userId: UserId, pdfs: PdfStore.Store): (r: seq<PdfStore.Pdf>)
    ensures forall p :: p in r <==> p in pdfs.records && p.userId == userId
    ensures forall p :: multiset(r)[p] == if p.userId == userId then multiset(pdfs.records)[p] else 0
    ensures PdfStore.NewestFirst(r)
  {
    PdfStore.ListOwned(pdfs, userId)
  }

  datatype PdfResponse = PdfNotFound | PdfFound(pdf: PdfStore.Pdf)

  function PdfStatus(r: PdfResponse): nat
  {
    if r.PdfNotFound? then 404 else 200
  }

  function HandleGetPdf(userId: UserId, pdfId: JsString, pdfs: PdfStore.Store): (r: PdfResponse)
    ensures PdfStatus(r) == 404 <==> forall p :: p in pdfs.records ==> !(p.id == pdfId && p.userId == userId)
    ensures r.PdfFound? ==> r.pdf in pdfs.records && r.pdf.id == pdfId && r.pdf.userId == userId
  {
    match PdfStore.FindOwned(pdfs.records, pdfId, userId)
    case None => PdfNotFound
    case Some(pdf) => PdfFound(pdf)
  }

  /**
   After a successful upload the uploader finds the new record by its id and
   in their listing, and no other user finds it.
   */
  lemma UploadedPdfIsScopedToUploader(userId: UserId, other: UserId, file: UploadedFile, env: UploadEnv,
                                      pdfs: PdfStore.Store, queue: seq<Job>, svc: UploadServices)
    requires PdfStore.Valid(pdfs) && other != userId
    requires Upload(userId, Some(file), env, pdfs, queue, svc).response.Uploaded?
    ensures var out := Upload(userId, Some(file), env, pdfs, queue, svc);
            && HandleGetPdf(userId, out.response.pdfId, out.pdfs).PdfFound?
            && HandleGetPdf(other, out.response.pdfId, out.pdfs) == PdfNotFound
            && out.pdfs.records[|pdfs.records|] in HandleListPdfs(userId, out.pdfs)
            && out.pdfs.records[|pdfs.records|] !in HandleListPdfs(other, out.pdfs)
  {
    var out := Upload(userId, Some(file), env, pdfs, queue, svc);
    var pdf := out.pdfs.records[|pdfs.records|];
    assert pdf in out.pdfs.records;
    PdfStore.FindOwnedIgnoresOtherUsers(out.pdfs, pdf.id, other);
  }

  /** The job the worker receives for an uploaded PDF names its record and its storage key. */
  lemma UploadedJobNamesRecord(userId: UserId, file: UploadedFile, env: UploadEnv,
                               pdfs: PdfStore.Store, queue: seq<Job>, svc: UploadServices)
    requires Upload(userId, Some(file), env, pdfs, queue, svc).response.Uploaded?
    ensures var out := Upload(userId, Some(file), env, pdfs, queue, svc);
            var job := out.queue[|queue|];
            && job.name == FileReady()
            && job.data.pdfId == Some(out.response.pdfId)
            && job.data.filePath == Some(StoragePath(userId, env.now, file.originalName))
            && Truthy(job.data.pdfId) && Truthy(job.data.filePath)
  {
  }
}

=== FILE: upload_path.dfy ===
/**
 The storage key under which an uploaded PDF is kept: the original file name is
 made safe by replacing every code unit outside `[a-zA-Z0-9.-]` with `_`, and the
 key is `<userId>/<timestamp>-<safeName>`.
 */
module UploadPath {
  import opened Results
  import opened JsText

  const Underscore: CodeUnit := 0x5F
  const Slash: CodeUnit := 0x2F
  const Dash: CodeUnit := 0x2D
  const Dot: CodeUnit := 0x2E

  /** The character class `[a-zA-Z0-9.-]` the sanitiser keeps. */
  predicate IsKept(c: CodeUnit)
  {
    || (0x61 <= c <= 0x7A)   // a-z
    || (0x41 <= c <= 0x5A)   // A-Z
    || (0x30 <= c <= 0x39)   // 0-9
    || c == Dot
    || c == Dash
  }

  /** A name every code unit of which is in the kept class or is `_`. */
  predicate IsSafeName(s: JsString)
  {
    forall i :: 0 <= i < |s| ==> IsKept(s[i]) || s[i] == Underscore
  }

  /**
   The sanitised file name. Each code unit is judged on its own, so a character
   outside the Basic Multilingual Plane (two code units) becomes `__`.
   */
  function Sanitise(name: JsString): (safe: JsString)
    ensures |safe| == |name|
    ensures forall i :: 0 <= i < |name| ==>
              safe[i] == (if IsKept(name[i]) then name[i] else Underscore)
  {
    if name == [] then []
    else [if IsKept(name[0]) then name[0] else Underscore] + Sanitise(name[1..])
  }

  /** The sanitised name uses only the kept class and `_`. */
  lemma SanitisedIsSafe(name: JsString)
    ensures IsSafeName(Sanitise(name))
  {
  }

  /** The names the sanitiser leaves alone are exactly the safe ones. */
  lemma SanitiseFixesExactlySafeNames(name: JsString)
    ensures Sanitise(name) == name <==> IsSafeName(name)
  {
    if IsSafeName(name) {
      assert forall i :: 0 <= i < |name| ==> Sanitise(name)[i] == name[i];
    }
  }

  /** Sanitising a sanitised name changes nothing. */
  lemma SanitiseIdempotent(name: JsString)
    ensures Sanitise(Sanitise(name)) == Sanitise(name)
  {
    SanitisedIsSafe(name);
    SanitiseFixesExactlySafeNames(Sanitise(name));
  }

  /**
   Sanitising loses information: an unsafe code unit and `_` in the same place
   give the same safe name.
   */
  lemma SanitiseMergesUnsafeWithUnderscore(before: JsString, c: CodeUnit, after: JsString)
    requires !IsKept(c) && c != Underscore
    ensures before + [c] + after != before + [Underscore] + after
    ensures Sanitise(before + [c] + after) == Sanitise(before + [Underscore] + after)
  {
    var x, y := before + [c] + after, before + [Underscore] + after;
    assert x[|before|] != y[|before|];
    forall i | 0 <= i < |x|
      ensures Sanitise(x)[i] == Sanitise(y)[i]
    {
      if i != |before| {
        assert x[i] == y[i];
      }
    }
  }

  /** "a b.pdf" and "a_b.pdf" are stored under the same safe name. */
  lemma SanitiseNotInjective()
    ensures Ascii("a b.pdf") != Ascii("a_b.pdf")
    ensures Sanitise(Ascii("a b.pdf")) == Sanitise(Ascii("a_b.pdf"))
  {
    assert Ascii("a b.pdf") == Ascii("a") + [0x20] + Ascii("b.pdf");
    assert Ascii("a_b.pdf") == Ascii("a") + [Underscore] + Ascii("b.pdf");
    SanitiseMergesUnsafeWithUnderscore(Ascii("a"), 0x20, Ascii("b.pdf"));
  }

  /** The storage key `${userId}/${ts}-${safeName}` for an upload at time `ts`. */
  function StoragePath(userId: JsString, ts: nat, originalName: JsString): (path: JsString)
    ensures IsPrefix(userId + [Slash], path)
    ensures |path| == |userId| + |Decimal(ts)| + |originalName| + 2
  {
    userId + [Slash] + Decimal(ts) + [Dash] + Sanitise(originalName)
  }

  // ---------------------------------------------------------------------------
  // Reading a key back. Not part of the server: it is the inverse that shows
  // how much of an upload a storage key determines.

  /** The position of the first `c` in `s`. */
  function IndexOf(s: JsString, c: CodeUnit): (r: Option<nat>)
    ensures r.Some? ==> r.value < |s| && s[r.value] == c && c !in s[..r.value]
    ensures r.None? ==> c !in s
  {
    if s == [] then None
    else if s[0] == c then Some(0)
    else match IndexOf(s[1..], c)
      case None => None
      case Some(k) => Some(k + 1)
  }

  datatype KeyParts = KeyParts(userId: JsString, ts: nat, safeName: JsString)

  /** Splits a key at its first `/` and at the first `-` after it. */
  function ParseStoragePath(path: JsString): Option<KeyParts>
  {
    match IndexOf(path, Slash)
    case None => None
    case Some(i) =>
      match ParseStamped(path[i + 1..])
      case None => None
      case Some(stamped) => Some(KeyParts(path[..i], stamped.0, stamped.1))
  }

  /** Splits `<digits>-<name>` into the number and the name. */
  function ParseStamped(rest: JsString): Option<(nat, JsString)>
  {
    match IndexOf(rest, Dash)
    case None => None
    case Some(j) =>
      if j > 0 && AllDigits(rest[..j]) then Some((DigitsValue(rest[..j]), rest[j + 1..])) else None
  }

  lemma IndexOfAfter(a: JsString, c: CodeUnit, b: JsString)
    requires c !in a
    ensures IndexOf(a + [c] + b, c) == Some(|a|)
  {
    var s := a + [c] + b;
    assert s[|a|] == c;
    assert s[..|a|] == a;
  }

  lemma StampedRoundTrip(ts: nat, safe: JsString)
    ensures ParseStamped(Decimal(ts) + [Dash] + safe) == Some((ts, safe))
  {
    var d := Decimal(ts);
    var rest := d + [Dash] + safe;
    assert Dash !in d;
    IndexOfAfter(d, Dash, safe);
    assert rest[..|d|] == d;
    assert rest[|d| + 1..] == safe;
    DecimalRoundTrip(ts);
  }

  /** A key built for a user whose id has no `/` reads back as that upload. */
  lemma StoragePathRoundTrip(userId: JsString, ts: nat, originalName: JsString)
    requires Slash !in userId
    ensures ParseStoragePath(StoragePath(userId, ts, originalName))
            == Some(KeyParts(userId, ts, Sanitise(originalName)))
  {
    var rest := Decimal(ts) + [Dash] + Sanitise(originalName);
    var path := StoragePath(userId, ts, originalName);
    assert path == userId + [Slash] + rest;
    IndexOfAfter(userId, Slash, rest);
    assert path[|userId| + 1..] == rest;
    assert path[..|userId|] == userId;
    StampedRoundTrip(ts, Sanitise(originalName));
  }

  /** The part of a key after the user id holds no `/`: digits, `-` and a safe name. */
  lemma StampedHasNoSlash(ts: nat, originalName: JsString)
    ensures Slash !in Decimal(ts) + [Dash] + Sanitise(originalName)
  {
    var d, safe := Decimal(ts), Sanitise(originalName);
    var rest := d + [Dash] + safe;
    forall k | 0 <= k < |rest|
      ensures rest[k] != Slash
    {
      if k < |d| {
        assert IsDigit(d[k]);
      } else if k > |d| {
        assert rest[k] == safe[k - |d| - 1];
      }
    }
  }

  /** In a key `userId + "/" + rest` whose rest has no `/`, the last `/` sits right after the user id. */
  lemma LastSlashEndsUserId(userId: JsString, rest: JsString, other: JsString)
    requires Slash !in rest
    requires |other| < |userId + [Slash] + rest| && (userId + [Slash] + rest)[|other|] == Slash
    ensures |other| <= |userId|
  {
    var path := userId + [Slash] + rest;
    forall k | |userId| < k < |path|
      ensures path[k] != Slash
    {
      assert path[k] == rest[k - |userId| - 1];
    }
  }

  /**
   Two uploads share a storage key only when they come from the same user at the
   same millisecond with names that sanitise alike.
   */
  lemma {:induction false} StoragePathInjective(u1: JsString, t1: nat, n1: JsString, u2: JsString, t2: nat, n2: JsString)
    ensures StoragePath(u1, t1, n1) == StoragePath(u2, t2, n2)
            <==> u1 == u2 && t1 == t2 && Sanitise(n1) == Sanitise(n2)
  {
    var r1 := Decimal(t1) + [Dash] + Sanitise(n1);
    var r2 := Decimal(t2) + [Dash] + Sanitise(n2);
    var p1, p2 := u1 + [Slash] + r1, u2 + [Slash] + r2;
    assert StoragePath(u1, t1, n1) == p1 && StoragePath(u2, t2, n2) == p2;
    if p1 == p2 {
      StampedHasNoSlash(t1, n1);
      StampedHasNoSlash(t2, n2);
      assert p2[|u2|] == Slash;
      LastSlashEndsUserId(u1, r1, u2);
      assert p1[|u1|] == Slash;
      LastSlashEndsUserId(u2, r2, u1);
      assert u1 == p1[..|u1|] == p2[..|u2|] == u2;
      assert r1 == p1[|u1| + 1..] == p2[|u2| + 1..] == r2;
      StampedRoundTrip(t1, Sanitise(n1));
      StampedRoundTrip(t2, Sanitise(n2));
    }
  }

}

=== FILE: worker.dfy ===
/**
 The ingestion job as a linear step machine: validate the job data, obtain a
 signed URL, download, parse, reject text-less PDFs, tag the text with its
 pdfId, split, index. Every external step either succeeds or throws; the first
 failure ends the job, so indexing happens only after every earlier step.
 */
module Worker {
  import opened Results
  import opened JsText
  import opened Documents
  import opened Queue

  /** What `createSignedUrl` resolves to: an error flag and `data?.signedUrl`. */
  datatype SignedUrlReply = SignedUrlReply(error: bool, signedUrl: Option<JsString>)

  /** The external services the job calls, each reduced to its result. */
  datatype Services = Services(
    createSignedUrl: (JsString, nat) -> SignedUrlReply,  // Supabase storage, bucket "pdfs"
    download: JsString -> Option<Bytes>,                  // axios GET as an array buffer
    parsePdf: Bytes -> Option<JsString>,                  // pdf-parse: the extracted text
    split: Document -> Option<seq<Document>>,             // CharacterTextSplitter.splitDocuments
    index: seq<Document> -> bool)                         // embed and store in Qdrant

  /** The signed URL's lifetime in seconds: ten minutes. */
  const SignedUrlSeconds: nat := 60 * 10

  /** One call the job makes to an external service, with its arguments. */
  datatype Call =
    | CreateSignedUrl(path: JsString, expiresIn: nat)
    | Download(url: JsString)
    | ParsePdf(buffer: Bytes)
    | SplitDocuments(doc: Document)
    | IndexDocuments(chunks: seq<Document>)

  datatype JobError =
    | MissingPdfIdOrFilePath
    | SignedUrlFailed
    | DownloadFailed
    | ParseFailed
    | NoExtractableText
    | SplitFailed
    | IndexFailed

  /** The calls a job made, in order, and how it ended (the indexed chunks on success). */
  datatype Run = Run(calls: seq<Call>, result: Result<seq<Document>, JobError>)

  /** The position of each kind of call in the pipeline. */
  function Stage(call: Call): nat
  {
    match call
    case CreateSignedUrl(_, _) => 0
    case Download(_) => 1
    case ParsePdf(_) => 2
    case SplitDocuments(_) => 3
    case IndexDocuments(_) => 4
  }

  /** How many external calls precede the end of a job that fails with `e`. */
  function CallsBefore(e: JobError): nat
  {
    match e
    case MissingPdfIdOrFilePath => 0
    case SignedUrlFailed => 1
    case DownloadFailed => 2
    case ParseFailed => 3
    case NoExtractableText => 3
    case SplitFailed => 4
    case IndexFailed => 5
  }

  /** `run` preceded by one more call. */
  function Then(call: Call, run: Run): (r: Run)
    ensures |r.calls| == |run.calls| + 1 && r.calls[0] == call && r.calls[1..] == run.calls
    ensures r.result == run.result
  {
    Run([call] + run.calls, run.result)
  }

  /**
   A run, or the tail of one that starts at pipeline position `first`: its
   calls follow the pipeline order without gaps, a success has made every
   call, and a failure ends right after the call that failed.
   */
  predicate InOrderFrom(run: Run, first: nat)
  {
    && (forall i :: 0 <= i < |run.calls| ==> Stage(run.calls[i]) == first + i)
    && (run.result.Ok? ==> first + |run.calls| == 5)
    && (run.result.Err? ==> first + |run.calls| == CallsBefore(run.result.error))
  }

  /** The text of every document the run handed to the splitter. */
  predicate SplitsTaggedText(run: Run, pdfId: JsString)
  {
    forall i :: 0 <= i < |run.calls| && run.calls[i].SplitDocuments? ==>
      run.calls[i].doc.pdfId == pdfId && !IsBlank(run.calls[i].doc.pageContent)
  }

  /** Embed and store the chunks in Qdrant. */
  function IndexStep(chunks: seq<Document>, svc: Services): (run: Run)
    ensures InOrderFrom(run, 4) && run.calls == [IndexDocuments(chunks)]
    ensures run.result.Ok? <==> svc.index(chunks)
    ensures run.result.Ok? ==> run.result.value == chunks
  {
    Run([IndexDocuments(chunks)], if svc.index(chunks) then Ok(chunks) else Err(IndexFailed))
  }

  /** Split the tagged document, then index the chunks. */
  function SplitStep(document: Document, svc: Services): (run: Run)
    ensures InOrderFrom(run, 3) && |run.calls| > 0 && run.calls[0] == SplitDocuments(document)
    ensures forall i :: 1 <= i < |run.calls| ==> !run.calls[i].SplitDocuments?
    ensures run.result.Ok? ==> svc.split(document) == Some(run.result.value)
  {
    match svc.split(document)
    case None => Run([SplitDocuments(document)], Err(SplitFailed))
    case Some(chunks) => Then(SplitDocuments(document), IndexStep(chunks, svc))
  }

  /**
   Whether the extracted text passes `!text || !text.trim()`: some code unit
   is not white space.
   */
  function HasText(text: JsString): (r: bool)
    ensures r <==> !IsBlank(text)
  {
    text != [] && (!IsWhiteSpace(text[0]) || HasText(text[1..]))
  }

  /** `HasText` agrees with the worker's `!text || !text.trim()` test, negated. */
  lemma HasTextIffTrimmedNonEmpty(text: JsString)
    ensures HasText(text) <==> Trim(text) != []
  {
    TrimEmptyIffBlank(text);
  }

  /** Parse the buffer; reject a PDF whose text is empty or white space. */
  function ParseStep(pdfId: JsString, buffer: Bytes, svc: Services): (run: Run)
    ensures InOrderFrom(run, 2) && |run.calls| > 0 && run.calls[0] == ParsePdf(buffer)
    ensures SplitsTaggedText(run, pdfId)
    ensures run.result == Err(NoExtractableText) <==>
              svc.parsePdf(buffer).Some? && IsBlank(svc.parsePdf(buffer).value)
  {
    match svc.parsePdf(buffer)
    case None => Run([ParsePdf(buffer)], Err(ParseFailed))
    case Some(text) =>
      if !HasText(text) then Run([ParsePdf(buffer)], Err(NoExtractableText))
      else
        var document := Document(text, pdfId);
        var rest := SplitStep(document, svc);
        var run := Then(ParsePdf(buffer), rest);
        assert forall i :: 1 <= i < |run.calls| ==> run.calls[i] == rest.calls[i - 1];
        assert run.calls[1] == SplitDocuments(document);
        assert forall i :: 0 <= i < |run.calls| && run.calls[i].SplitDocuments? ==> i == 1;
        run
  }

  /** Download the PDF from the signed URL, then parse it. */
  function DownloadStep(pdfId: JsString, url: JsString, svc: Services): (run: Run)
    ensures InOrderFrom(run, 1) && |run.calls| > 0 && run.calls[0] == Download(url)
    ensures SplitsTaggedText(run, pdfId)
  {
    match svc.download(url)
    case None => Run([Download(url)], Err(DownloadFailed))
    case Some(buffer) =>
      var rest := ParseStep(pdfId, buffer, svc);
      var run := Then(Download(url), rest);
      assert forall i :: 1 <= i < |run.calls| ==> run.calls[i] == rest.calls[i - 1];
      run
  }

  /** The job handler. */
  function Process(data: JobData, svc: Services): (run: Run)
    ensures run.result == Err(MissingPdfIdOrFilePath) <==> !Truthy(data.pdfId) || !Truthy(data.filePath)
    ensures run.calls == [] <==> run.result == Err(MissingPdfIdOrFilePath)
    ensures run.calls != [] ==> run.calls[0] == CreateSignedUrl(data.filePath.value, 600)
    ensures InOrderFrom(run, 0)
    ensures run.calls != [] ==> SplitsTaggedText(run, data.pdfId.value)
  {
    if !Truthy(data.pdfId) || !Truthy(data.filePath) then
      Run([], Err(MissingPdfIdOrFilePath))
    else
      var reply := svc.createSignedUrl(data.filePath.value, SignedUrlSeconds);
      var sign := CreateSignedUrl(data.filePath.value, SignedUrlSeconds);
      if reply.error || !Truthy(reply.signedUrl) then Run([sign], Err(SignedUrlFailed))
      else
        var rest := DownloadStep(data.pdfId.value, reply.signedUrl.value, svc);
        var run := Then(sign, rest);
        assert forall i :: 1 <= i < |run.calls| ==> run.calls[i] == rest.calls[i - 1];
        run
  }

  /** Every external step of a job succeeds. An independent statement of the happy path. */
  predicate StepsSucceed(data: JobData, svc: Services)
  {
    && Truthy(data.pdfId) && Truthy(data.filePath)
    && var reply := svc.createSignedUrl(data.filePath.value, SignedUrlSeconds);
    && !reply.error && Truthy(reply.signedUrl)
    && var buffer := svc.download(reply.signedUrl.value);
    && buffer.Some?
    && var text := svc.parsePdf(buffer.value);
    && text.Some? && !IsBlank(text.value)
    && var chunks := svc.split(Document(text.value, data.pdfId.value));
    && chunks.Some? && svc.index(chunks.value)
  }

  /** A job succeeds exactly when every one of its steps does. */
  lemma SucceedsIffStepsSucceed(data: JobData, svc: Services)
    ensures Process(data, svc).result.Ok? <==> StepsSucceed(data, svc)
  {
  }

  /**
   The indexer is called only after signing, download, parsing, the text check
   and splitting all succeeded, and it is handed exactly the splitter's chunks
   of the job's own text tagged with the job's pdfId.
   */
  lemma IndexingFollowsEveryStep(data: JobData, svc: Services, i: nat)
    requires i < |Process(data, svc).calls| && Process(data, svc).calls[i].IndexDocuments?
    ensures i == 4
    ensures Truthy(data.pdfId) && Truthy(data.filePath)
    ensures var reply := svc.createSignedUrl(data.filePath.value, SignedUrlSeconds);
            && !reply.error && Truthy(reply.signedUrl)
            && svc.download(reply.signedUrl.value).Some?
            && var text := svc.parsePdf(svc.download(reply.signedUrl.value).value);
            && text.Some? && !IsBlank(text.value)
            && svc.split(Document(text.value, data.pdfId.value)) == Some(Process(data, svc).calls[i].chunks)
  {
  }

  /** A job whose PDF yields blank text fails with that reason, and nothing is indexed. */
  lemma BlankTextIsNeverIndexed(data: JobData, svc: Services)
    requires Truthy(data.pdfId) && Truthy(data.filePath)
    requires var reply := svc.createSignedUrl(data.filePath.value, SignedUrlSeconds);
             && !reply.error && Truthy(reply.signedUrl)
             && svc.download(reply.signedUrl.value).Some?
             && var text := svc.parsePdf(svc.download(reply.signedUrl.value).value);
             && text.Some? && IsBlank(text.value)
    ensures Process(data, svc).result == Err(NoExtractableText)
    ensures forall c :: c in Process(data, svc).calls ==> !c.IndexDocuments?
  {
  }

  /**
   A signing reply that carries an error, or no URL, ends the job after that one
   call: nothing is downloaded.
   */
  lemma SignedUrlFailureStopsJob(data: JobData, svc: Services)
    requires Truthy(data.pdfId) && Truthy(data.filePath)
    requires var reply := svc.createSignedUrl(data.filePath.value, SignedUrlSeconds);
             reply.error || !Truthy(reply.signedUrl)
    ensures Process(data, svc) == Run([CreateSignedUrl(data.filePath.value, 600)], Err(SignedUrlFailed))
  {
  }
}
